=== FILE: README.md ===
# Request throttler model

A Dafny model of the AdonisJS request throttler. The manager decides whether a client may go on. It reads the visitor record stored for the client's identifier and compares its attempt count with the effective limit. On a permit it writes back `attemptCount + 1` with a renewed reset time. On a denial it writes nothing. Either way it reports the counters used for rate-limit headers. The middleware turns those counters into the `X-RateLimit-Limit`, `X-RateLimit-Remaining` and `X-RateLimit-Reset` headers. It then either passes the request on or refuses it with the configured status, code and a retry message.

The model is pure. The cache partition is a `map<string, Cached>` from identifier to record and time-to-live. The clock is a parameter `now`, in epoch seconds. One verification is the function `RequestThrottlerManager.Verify(store, config, now, countOverride, periodOverride, id)`, which returns the result and the new store. `VerifyClient` hands its arguments straight to `Verify`. The middleware is `RequestThrottlerMiddleware.Respond`, which maps a result to headers plus `Next` or `Reject(message, status, code)`, and `Handle`, which chains `Verify` and `Respond`.

Files:
- `optional.dfy`: `Optional.Option`, the stand-in for a value that may be `undefined`.
- `decimal.dfy`: decimal rendering of integers (JavaScript `String(n)` for integral numbers) with a parser proved to be its left inverse.
- `manager.dfy`: `ThrottleTypes` (config, visitor record, cache entry, result, store expiry) and `RequestThrottlerManager` (limit resolution, the permit test, `Verify`).
- `properties.dfy`: `ThrottleProperties`, which holds lemmas over one call and over runs of calls for one identifier.
- `middleware.dfy`: `RequestThrottlerMiddleware` (headers, retry message, outcome).

JavaScript `x || fallback` on an optional number is modelled as `Resolve`: `undefined` and `0` fall back, and every other number is kept, negative ones included. The result's `maxAttemptCount` and the permit test apply `|| config.maxAttempts` a second time. `Verify` does the same, and its contract shows that the second `||` never changes the resolved limit.

The visitor record has only `attemptCount` and `resetTime`, and `verify` takes no request-instance token. Repeated verifications of one request are therefore not de-duplicated: each is counted as a new attempt.

## Model

| member | source | states |
|---|---|---|
| RequestThrottlerManager.Verify | src/RequestThrottlerManager.ts:50-89 | Permitted iff the stored count (0 when absent) is below the effective limit. The reported count is the stored count + 1 on both outcomes. The reported limit is the effective limit. A permit stores `{count+1, now+period}` with the period as TTL and reports `now+period`. A denial leaves the store identical and reports the stored reset time (`now+period` for an absent record). No other identifier's record changes. |
| RequestThrottlerManager.EffectiveLimit | src/RequestThrottlerManager.ts:55 | The limit is the override when present and non-zero, otherwise `config.maxAttempts`. |
| RequestThrottlerManager.EffectivePeriod | src/RequestThrottlerManager.ts:56-57 | The period is the override when present and non-zero, otherwise `config.maxAttemptPeriod`. |
| RequestThrottlerManager.CreateResetTime | src/RequestThrottlerManager.ts:102-106 | A fresh reset time lies exactly `period` seconds after `now`. It is in the future iff the period is positive. |
| RequestThrottlerManager.VerifyByAttemptCount | src/RequestThrottlerManager.ts:91-96 | For a non-zero limit the test is `count < limit`, so the second fallback to `config.maxAttempts` changes nothing. For a zero limit it is `count < config.maxAttempts`. |
| RequestThrottlerManager.VerifyClient | src/RequestThrottlerManager.ts:32-38 | The entry point returns what `verify` returns. It is permitted iff the stored count is below the effective limit, and reports that limit and the stored count + 1. A permit stores `{count+1, now+period}` with the period as TTL and reports `now+period`. A denial leaves the store identical and reports the stored reset time (`now+period` for an absent record). No other identifier's record changes. |
| ThrottleProperties.MissingRecordActsAsNewVisitor | src/RequestThrottlerManager.ts:98-100 | An identifier with no record gives the same result as one holding the new-visitor record `{0, now+period}`. The stores afterwards agree on every other identifier, and on this one after a permit. |
| ThrottleProperties.ZeroOverrideIsUnset | src/RequestThrottlerManager.ts:55-57 | A zero override of the limit or the period gives exactly the same step as no override. |
| ThrottleProperties.FirstCallPermitted | src/RequestThrottlerManager.ts:61-67 | An identifier with no record is permitted when the limit is positive. It reports count 1 and is stored as `{1, now+period}`. |
| ThrottleProperties.DenialIsIdempotent | src/RequestThrottlerManager.ts:69-70 | After a denial, a later call is denied again with the same reported count and the store still unchanged. With a stored record, the reset time is also the same. |
| ThrottleProperties.VerifyKeepsCeiling | src/RequestThrottlerManager.ts:69-80 | If every stored count is at most the effective limit, the same holds after a call. |
| ThrottleProperties.VerifyKeepsCountsNonNegative | src/RequestThrottlerManager.ts:76-80 | If every stored count is non-negative, the same holds after a call. |
| ThrottleProperties.RepeatKeepsCeiling | src/RequestThrottlerManager.ts:69-80 | A whole run of calls keeps every stored count at most the effective limit. |
| ThrottleProperties.RepeatFromCount | src/RequestThrottlerManager.ts:69-88 | Start from stored count c ≤ N. Call i is permitted iff c+i < N, reports min(c+i, N)+1 and limit N, and a permitted call reports its own time + period as the reset time. The final stored count is min(c+calls, N). |
| ThrottleProperties.BurstFromNewVisitor | src/RequestThrottlerManager.ts:61-88 | Start from no record and limit N ≥ 0. Calls 1..N are permitted and report 1..N. Every later call is denied and reports N+1. The stored count ends at min(calls, N). |
| ThrottleProperties.ExpiredBehavesAsNew | src/RequestThrottlerManager.ts:65-67 | Once the cache entry has expired, a call gives the same result and stored record as a first-ever call. |
| ThrottleProperties.DistinctIdentifiersCommute | src/RequestThrottlerManager.ts:65-80 | Calls for two different identifiers give the same results and the same final store in either order. |
| ThrottleTypes.Expire | src/RequestThrottlerManager.ts:76-79 | Cache expiry of an entry written with a TTL removes that identifier and keeps every other entry. |
| Decimal.IntToString | src/Middlewares/RequestThrottlerMiddleware.ts:56-58 | A header number is written in its one standard decimal spelling: a minus sign exactly for negative numbers, then digits with no leading zero and no `-0`. |
| Decimal.ParseIntToString | src/Middlewares/RequestThrottlerMiddleware.ts:56-58 | Every header number rendered as a decimal string reads back as that number. |
| RequestThrottlerMiddleware.Remaining | src/Middlewares/RequestThrottlerMiddleware.ts:55-57 | The remaining count is never negative. It is `limit - attemptCount` when that is non-negative, and 0 otherwise. |
| RequestThrottlerMiddleware.SetHeaders | src/Middlewares/RequestThrottlerMiddleware.ts:51-59 | Exactly the three rate-limit headers are added or overwritten. They read back as the limit, the clamped remaining count and the reset time. All other headers are untouched. |
| RequestThrottlerMiddleware.RetryMessageShape | src/Middlewares/RequestThrottlerMiddleware.ts:29-36 | The message is the configured message + " Please try again later". A " <n> seconds" suffix follows iff `resetTime - now > 0`, and then n reads back as `resetTime - now`. |
| RequestThrottlerMiddleware.RetryMessage | src/Middlewares/RequestThrottlerMiddleware.ts:29-36 | The message always starts with the configured message + " Please try again later". It has nothing more iff the reset time is not in the future. |
| RequestThrottlerMiddleware.Respond | src/Middlewares/RequestThrottlerMiddleware.ts:38-48 | The headers are set on both outcomes. The request goes on iff it was permitted. Otherwise it is refused with the configured status, code and retry message. |
| RequestThrottlerMiddleware.HeadersIndependentOfDecision | src/Middlewares/RequestThrottlerMiddleware.ts:38-46 | The headers are identical whether the request is permitted or refused. Only the outcome differs: `Next` for a permit, the configured rejection for a refusal. |
| RequestThrottlerMiddleware.Handle | src/Middlewares/RequestThrottlerMiddleware.ts:23-49 | A request is refused iff the stored count is at least the effective limit, and a refusal leaves the store unchanged. A permit leaves the store with `{count+1, now+period}` written for this client, with the period as TTL, and every other entry as it was. The three headers are always present. The limit header reads back as the effective limit. The reset header reads back as the reset time of the verification: the stored one on a refusal of a stored record, `now+period` otherwise. A refusal carries the configured status and code and the retry message for that reset time. |
| RequestThrottlerMiddleware.RejectionShowsNoneRemaining | src/Middlewares/RequestThrottlerMiddleware.ts:40-57 | A refused request always carries a remaining header of 0. |
| RequestThrottlerMiddleware.PermitShowsAttemptsLeft | src/Middlewares/RequestThrottlerMiddleware.ts:55-57 | A permitted request's remaining header is the limit minus the stored count before the call, minus one. |

## Left out

- Cache backend: the Adonis cache and the choice of storage partition (`viaStorage`, `cacheStorage`) are one plain map. `get` and `put` are map lookup and update.
- TTL units: the TTL given to `put` is recorded as the raw period number. Expiry is the explicit `Expire`. Nothing is said about the unit the cache reads that TTL in.
- Time and durations: `dayjs`/`ms` parsing of `period + ttlUnits` and the wall-clock reads are not modelled. `now` is a parameter in epoch seconds, and a reset time is `now + period` with the period already in seconds. Sub-second truncation by `.unix()` and by `diff(..., 'second')` is not modelled. Both `createResetTime` calls in one verification see the same `now`.
- Client recognition: `verifyRequest` and `identifyClient` are a foreign call. The identifier is an input.
- Concurrency: the `await`s between read and write, and the lost-update race between concurrent calls, are not modelled. `Verify` is one atomic step.
- Number coercion: the middleware's `Number(...)` on string route parameters is not modelled. Parameters arrive as optional integers, and `NaN` is not represented.
- HTTP plumbing: `ResponseContract`, construction of `RequestLimitedException` and the `next()` promise are abstracted to the `Response` value. `Reject` carries the exception's message, status and code.
- Number precision: counts, limits and times are exact integers. The source works on JavaScript numbers, which are doubles: above 2^53 `attemptCount + 1` stops growing, so a limit above 2^53 is never reached and every call is permitted. `Verify`'s permit rule matches the source only for counts and limits up to 2^53.
- Number rendering: `IntToString` is exact decimal for every integer. JavaScript switches to exponent notation from 1e21 on.

=== FILE: decimal.dfy ===
/**
 Decimal rendering of integers, as JavaScript's `String(n)` produces it for an
 integral number, together with a parser that is its left inverse. The parser
 is the partner that lets header values be read back as numbers.
 */
module Decimal {
  import opened Optional

  predicate IsDigit(c: char) {
    '0' <= c <= '9'
  }

  predicate AllDigits(s: string) {
    forall i :: 0 <= i < |s| ==> IsDigit(s[i])
  }

  function DigitChar(d: nat): (c: char)
    requires d < 10
    ensures IsDigit(c)
  {
    (48 + d) as char
  }

  function DigitValue(c: char): (d: nat)
    requires IsDigit(c)
    ensures d < 10
    ensures DigitChar(d) == c
  {
    c as int - 48
  }

  /** The shortest decimal spelling of `n`: at least one digit, no leading zero. */
  function NatToString(n: nat): (s: string)
    ensures |s| >= 1
    ensures AllDigits(s)
    ensures |s| > 1 ==> s[0] != '0'
    ensures s[0] == '0' <==> n == 0
    decreases n
  {
    if n < 10 then [DigitChar(n)] else NatToString(n / 10) + [DigitChar(n % 10)]
  }

  /** The value of a string of decimal digits, most significant first. */
  function ParseDigits(s: string): nat
    requires AllDigits(s)
    decreases |s|
  {
    if s == [] then 0 else ParseDigits(s[..|s| - 1]) * 10 + DigitValue(s[|s| - 1])
  }

  /**
   The decimal spelling of `i`: a minus sign exactly for negative numbers,
   then the digits of its magnitude with no leading zero (and no "-0").
   */
  function IntToString(i: int): (s: string)
    ensures i >= 0 ==> |s| >= 1 && AllDigits(s) && (|s| > 1 ==> s[0] != '0')
    ensures i < 0 ==> |s| >= 2 && s[0] == '-' && AllDigits(s[1..]) && s[1] != '0'
  {
    if i < 0 then "-" + NatToString(-i) else NatToString(i)
  }

  /** Reads back an optionally negative decimal integer; anything else is `None`. */
  function ParseInt(s: string): Option<int> {
    if |s| >= 2 && s[0] == '-' && AllDigits(s[1..]) then Some(0 - ParseDigits(s[1..]) as int)
    else if |s| >= 1 && AllDigits(s) then Some(ParseDigits(s) as int)
    else None
  }

  lemma {:induction false} ParseNatToString(n: nat)
    ensures ParseDigits(NatToString(n)) == n
    decreases n
  {
    var s := NatToString(n);
    if n >= 10 {
      var prefix := NatToString(n / 10);
      assert s == prefix + [DigitChar(n % 10)];
      assert s[..|s| - 1] == prefix;
      ParseNatToString(n / 10);
      assert ParseDigits(s) == (n / 10) * 10 + n % 10;
    }
  }

  /** Round trip: every integer's rendering parses back to that integer. */
  lemma ParseIntToString(i: int)
    ensures ParseInt(IntToString(i)) == Some(i)
  {
    var s := IntToString(i);
    if i < 0 {
      assert s[1..] == NatToString(-i);
      ParseNatToString(-i);
    } else {
      ParseNatToString(i);
      assert s[0] != '-' by {
        assert IsDigit(s[0]);
      }
    }
  }
}

=== FILE: manager.dfy ===
/**
 The records the throttler reads, writes and returns, and the configuration it
 is built with.
 */
module ThrottleTypes {
  import opened Optional

  /** What the middleware throws when a request is refused. */
  datatype LimitExceptionParams = LimitExceptionParams(message: string, status: int, code: string)

  /**
   The configuration the manager and middleware read. The duration unit and the
   cache partition name are not modelled: periods are already in seconds and
   there is a single store.
   */
  datatype ThrottleConfig = ThrottleConfig(
    maxAttempts: int,
    maxAttemptPeriod: int,
    limitExceptionParams: LimitExceptionParams)

  /** The record persisted per client identifier. */
  datatype VisitorData = VisitorData(attemptCount: int, resetTime: int)

  /** A cache entry: the stored record and the time-to-live it was written with. */
  datatype Cached = Cached(data: VisitorData, ttl: int)

  /** The cache partition, keyed by client identifier. */
  type Store = map<string, Cached>

  /** The counters returned to the caller for building rate-limit headers. */
  datatype VerificationResult = VerificationResult(
    maxAttemptCount: int,
    attemptCount: int,
    resetTime: int,
    requestPermitted: bool)

  /** One verification: the result and the store after it. */
  datatype Step = Step(result: VerificationResult, store: Store)

  /** The record stored for `id`, if any. */
  function Lookup(store: Store, id: string): (r: Option<VisitorData>)
    ensures r.Some? <==> id in store
  {
    if id in store then Some(store[id].data) else None
  }

  /** The stored attempt count for `id`, an absent record counting as zero. */
  function StoredCount(store: Store, id: string): int {
    match Lookup(store, id)
    case Some(d) => d.attemptCount
    case None => 0
  }

  /** The TTL expiry of the cache: the entry for `id` disappears. */
  function Expire(store: Store, id: string): (s: Store)
    ensures id !in s
    ensures forall k :: k in store && k != id ==> k in s && s[k] == store[k]
    ensures s.Keys <= store.Keys
  {
    store - {id}
  }
}

/**
 The throttling decision of the request throttler manager: resolve the
 effective limits, read the visitor record, decide, write back on permit, and
 report the counters. The clock is the parameter `now` (epoch seconds).
 */
module RequestThrottlerManager {
  import opened Optional
  import opened ThrottleTypes

  /** JavaScript `x || fallback` for a number: zero is falsy and falls through. */
  function OrNumber(x: int, fallback: int): int {
    if x != 0 then x else fallback
  }

  /** JavaScript `x || fallback` for an optional number: `undefined` and zero fall through. */
  function Resolve(x: Option<int>, fallback: int): int {
    match x
    case None => fallback
    case Some(v) => OrNumber(v, fallback)
  }

  /** The limit a call is held to: the override when present and non-zero, else the configured one. */
  function EffectiveLimit(config: ThrottleConfig, countOverride: Option<int>): (n: int)
    ensures countOverride.Some? && countOverride.value != 0 ==> n == countOverride.value
    ensures countOverride == None || countOverride == Some(0) ==> n == config.maxAttempts
  {
    Resolve(countOverride, config.maxAttempts)
  }

  /** The window length of a call, resolved in the same way against the configured period. */
  function EffectivePeriod(config: ThrottleConfig, periodOverride: Option<int>): (p: int)
    ensures periodOverride.Some? && periodOverride.value != 0 ==> p == periodOverride.value
    ensures periodOverride == None || periodOverride == Some(0) ==> p == config.maxAttemptPeriod
  {
    Resolve(periodOverride, config.maxAttemptPeriod)
  }

  /** The reset time of a window started at `now` and lasting `period` seconds. */
  function CreateResetTime(now: int, period: int): (r: int)
    ensures r - now == period
    ensures r > now <==> period > 0
  {
    now + period
  }

  /** The record an identifier without a stored record is treated as having. */
  function BuildDataForNewVisitor(resetTime: int): VisitorData {
    VisitorData(0, resetTime)
  }

  /** The permit test; the limit is or-ed with the configured one once more, as the caller's value may be zero. */
  function VerifyByAttemptCount(config: ThrottleConfig, userAttemptCount: int, permittedAttemptCount: int): (r: bool)
    ensures permittedAttemptCount != 0 ==> (r <==> userAttemptCount < permittedAttemptCount)
    ensures permittedAttemptCount == 0 ==> (r <==> userAttemptCount < config.maxAttempts)
  {
    userAttemptCount < OrNumber(permittedAttemptCount, config.maxAttempts)
  }

  /**
   One verification of `id`. The request is permitted exactly when the stored
   count is below the effective limit; a permit writes the incremented count
   and a renewed reset time, a denial writes nothing. The reported attempt
   count always includes the request being evaluated.
   */
  function Verify(store: Store, config: ThrottleConfig, now: int,
                  countOverride: Option<int>, periodOverride: Option<int>, id: string): (st: Step)
    ensures st.result.maxAttemptCount == EffectiveLimit(config, countOverride)
    ensures st.result.requestPermitted <==> StoredCount(store, id) < EffectiveLimit(config, countOverride)
    ensures st.result.attemptCount == StoredCount(store, id) + 1
    ensures st.result.requestPermitted ==>
      && st.result.resetTime == now + EffectivePeriod(config, periodOverride)
      && st.store == store[id := Cached(VisitorData(StoredCount(store, id) + 1, st.result.resetTime),
                                        EffectivePeriod(config, periodOverride))]
    ensures !st.result.requestPermitted ==>
      && st.store == store
      && st.result.resetTime == (if id in store then store[id].data.resetTime
                                 else now + EffectivePeriod(config, periodOverride))
    ensures forall k :: k != id ==> Lookup(st.store, k) == Lookup(store, k)
  {
    var permittedAttemptCount := Resolve(countOverride, config.maxAttempts);
    var permittedAttemptPeriod := Resolve(periodOverride, config.maxAttemptPeriod);
    var initResetTime := CreateResetTime(now, permittedAttemptPeriod);
    var visitor := if id in store then store[id].data else BuildDataForNewVisitor(initResetTime);
    var maxAttemptCount := OrNumber(permittedAttemptCount, config.maxAttempts);
    if !VerifyByAttemptCount(config, visitor.attemptCount, permittedAttemptCount) then
      Step(VerificationResult(maxAttemptCount, visitor.attemptCount + 1, visitor.resetTime, false), store)
    else
      var resetTime := CreateResetTime(now, permittedAttemptPeriod);
      var store' := store[id := Cached(VisitorData(visitor.attemptCount + 1, resetTime), permittedAttemptPeriod)];
      Step(VerificationResult(maxAttemptCount, visitor.attemptCount + 1, resetTime, true), store')
  }

  /**
   The public entry point for a caller that already knows the client
   identifier: permitted exactly below the limit, counting this request, and
   writing only on a permit.
   */
  function VerifyClient(store: Store, config: ThrottleConfig, now: int, clientIdentifier: string,
                        permittedAttemptCount: Option<int>, permittedAttemptPeriod: Option<int>): (st: Step)
    ensures st.result.requestPermitted <==>
      StoredCount(store, clientIdentifier) < EffectiveLimit(config, permittedAttemptCount)
    ensures st.result.attemptCount == StoredCount(store, clientIdentifier) + 1
    ensures st.result.maxAttemptCount == EffectiveLimit(config, permittedAttemptCount)
    ensures !st.result.requestPermitted ==>
      && st.store == store
      && st.result.resetTime == (if clientIdentifier in store then store[clientIdentifier].data.resetTime
                                 else now + EffectivePeriod(config, permittedAttemptPeriod))
    ensures st.result.requestPermitted ==>
      && st.result.resetTime == now + EffectivePeriod(config, permittedAttemptPeriod)
      && st.store == store[clientIdentifier := Cached(VisitorData(StoredCount(store, clientIdentifier) + 1,
                                                                  st.result.resetTime),
                                                      EffectivePeriod(config, permittedAttemptPeriod))]
    ensures forall k :: k != clientIdentifier ==> Lookup(st.store, k) == Lookup(store, k)
  {
    Verify(store, config, now, permittedAttemptCount, permittedAttemptPeriod, clientIdentifier)
  }
}

=== FILE: middleware.dfy ===
/**
 The HTTP middleware around the throttler: it verifies the request, sets the
 rate-limit headers on every outcome, and either passes the request on or
 rejects it with the configured status, code and a retry message.
 */
module RequestThrottlerMiddleware {
  import opened Optional
  import opened Decimal
  import opened ThrottleTypes
  import opened RequestThrottlerManager

  const LimitHeader := "X-RateLimit-Limit"
  const RemainingHeader := "X-RateLimit-Remaining"
  const ResetHeader := "X-RateLimit-Reset"

  type Headers = map<string, string>

  /** What happens to the request: it goes on to the next handler, or it is refused. */
  datatype Outcome = Next | Reject(message: string, status: int, code: string)

  /** The response headers and the outcome of one pass through the middleware. */
  datatype Response = Response(headers: Headers, outcome: Outcome)

  /** The attempts left in the window, clamped at zero. */
  function Remaining(maxAttemptCount: int, attemptCount: int): (r: int)
    ensures r >= 0
    ensures r >= maxAttemptCount - attemptCount
    ensures r == 0 || r == maxAttemptCount - attemptCount
  {
    var requestRemaining := maxAttemptCount - attemptCount;
    if requestRemaining >= 0 then requestRemaining else 0
  }

  /**
   Sets the three rate-limit headers from a verification result; every other
   header is left as it was. Each value reads back as the number it encodes.
   */
  function SetHeaders(headers: Headers, v: VerificationResult): (h: Headers)
    ensures h.Keys == headers.Keys + {LimitHeader, RemainingHeader, ResetHeader}
    ensures forall k :: k in headers && k !in {LimitHeader, RemainingHeader, ResetHeader} ==> h[k] == headers[k]
    ensures ParseInt(h[LimitHeader]) == Some(v.maxAttemptCount)
    ensures ParseInt(h[RemainingHeader]) == Some(Remaining(v.maxAttemptCount, v.attemptCount))
    ensures ParseInt(h[ResetHeader]) == Some(v.resetTime)
  {
    ParseIntToString(v.maxAttemptCount);
    ParseIntToString(Remaining(v.maxAttemptCount, v.attemptCount));
    ParseIntToString(v.resetTime);
    headers[LimitHeader := IntToString(v.maxAttemptCount)]
           [RemainingHeader := IntToString(Remaining(v.maxAttemptCount, v.attemptCount))]
           [ResetHeader := IntToString(v.resetTime)]
  }

  /** The fixed part of the rejection message. */
  function RetryPrefix(message: string): string {
    message + " Please try again later"
  }

  /**
   The rejection message: the configured message, then the retry hint, then
   the whole seconds until the reset time when that is in the future.
   */
  function RetryMessage(message: string, resetTime: int, now: int): (m: string)
    ensures RetryPrefix(message) <= m
    ensures m == RetryPrefix(message) <==> resetTime - now <= 0
  {
    var diffTime := resetTime - now;
    var diffSeconds := if diffTime > 0 then " " + IntToString(diffTime) + " seconds" else "";
    RetryPrefix(message) + diffSeconds
  }

  /**
   The message starts with the configured message and the retry hint. It ends
   there exactly when the reset time is not in the future; otherwise the rest
   is " <n> seconds" where <n> reads back as the seconds left.
   */
  lemma RetryMessageShape(message: string, resetTime: int, now: int)
    ensures var m := RetryMessage(message, resetTime, now);
      var p := RetryPrefix(message);
      && p <= m
      && (m == p <==> resetTime - now <= 0)
      && (resetTime - now > 0 ==>
            var tail := m[|p|..];
            && |tail| > |" seconds"| + 1
            && tail[0] == ' '
            && tail[|tail| - |" seconds"|..] == " seconds"
            && ParseInt(tail[1..|tail| - |" seconds"|]) == Some(resetTime - now))
  {
    var m := RetryMessage(message, resetTime, now);
    var p := RetryPrefix(message);
    if resetTime - now > 0 {
      var digits := IntToString(resetTime - now);
      var tail := " " + digits + " seconds";
      assert m == p + tail;
      assert m[|p|..] == tail;
      assert tail[1..|tail| - |" seconds"|] == digits;
      ParseIntToString(resetTime - now);
    }
  }

  /**
   Turns a verification result into a response: the headers are set on both
   outcomes, and the request is refused with the configured status and code
   exactly when it was not permitted.
   */
  function Respond(exception: LimitExceptionParams, headers: Headers, v: VerificationResult, now: int): (r: Response)
    ensures r.headers == SetHeaders(headers, v)
    ensures r.outcome.Next? <==> v.requestPermitted
    ensures r.outcome.Reject? ==>
      && r.outcome.status == exception.status
      && r.outcome.code == exception.code
      && r.outcome.message == RetryMessage(exception.message, v.resetTime, now)
  {
    var message := RetryMessage(exception.message, v.resetTime, now);
    var withHeaders := SetHeaders(headers, v);
    if !v.requestPermitted then Response(withHeaders, Reject(message, exception.status, exception.code))
    else Response(withHeaders, Next)
  }

  /**
   The headers are set before the permit check: they are the same whichever
   way the request is decided, and only the outcome differs.
   */
  lemma HeadersIndependentOfDecision(exception: LimitExceptionParams, headers: Headers,
                                     v: VerificationResult, now: int)
    ensures var permitted := Respond(exception, headers, v.(requestPermitted := true), now);
      var refused := Respond(exception, headers, v.(requestPermitted := false), now);
      && permitted.headers == refused.headers
      && permitted.outcome == Next
      && refused.outcome == Reject(RetryMessage(exception.message, v.resetTime, now), exception.status, exception.code)
  {
  }

  /** The response of one pass through the middleware and the store it leaves. */
  datatype Handled = Handled(response: Response, store: Store)

  /**
   One request through the middleware for the client `id`, with the optional
   limit and period the route passes.
   */
  function Handle(store: Store, config: ThrottleConfig, headers: Headers, now: int, id: string,
                  maxAttempt: Option<int>, maxAttemptPeriod: Option<int>): (h: Handled)
    ensures h.response.outcome.Reject? <==> StoredCount(store, id) >= EffectiveLimit(config, maxAttempt)
    ensures h.response.outcome.Reject? ==> h.store == store
    ensures h.response.outcome.Next? ==>
      h.store == store[id := Cached(VisitorData(StoredCount(store, id) + 1,
                                                now + EffectivePeriod(config, maxAttemptPeriod)),
                                    EffectivePeriod(config, maxAttemptPeriod))]
    ensures {LimitHeader, RemainingHeader, ResetHeader} <= h.response.headers.Keys
    ensures ParseInt(h.response.headers[LimitHeader]) == Some(EffectiveLimit(config, maxAttempt))
    ensures var reset := if id in store && StoredCount(store, id) >= EffectiveLimit(config, maxAttempt)
                         then store[id].data.resetTime
                         else now + EffectivePeriod(config, maxAttemptPeriod);
      && ParseInt(h.response.headers[ResetHeader]) == Some(reset)
      && (h.response.outcome.Reject? ==>
            h.response.outcome == Reject(RetryMessage(config.limitExceptionParams.message, reset, now),
                                         config.limitExceptionParams.status,
                                         config.limitExceptionParams.code))
  {
    var st := Verify(store, config, now, maxAttempt, maxAttemptPeriod, id);
    Handled(Respond(config.limitExceptionParams, headers, st.result, now), st.store)
  }

  /** A refused request always shows zero remaining attempts. */
  lemma RejectionShowsNoneRemaining(store: Store, config: ThrottleConfig, headers: Headers, now: int, id: string,
                                    maxAttempt: Option<int>, maxAttemptPeriod: Option<int>)
    requires Handle(store, config, headers, now, id, maxAttempt, maxAttemptPeriod).response.outcome.Reject?
    ensures ParseInt(Handle(store, config, headers, now, id, maxAttempt, maxAttemptPeriod)
                       .response.headers[RemainingHeader]) == Some(0)
  {
  }

  /**
   A permitted request shows the attempts left after it: the limit minus the
   stored count before the call, minus one for this request.
   */
  lemma PermitShowsAttemptsLeft(store: Store, config: ThrottleConfig, headers: Headers, now: int, id: string,
                                maxAttempt: Option<int>, maxAttemptPeriod: Option<int>)
    requires Handle(store, config, headers, now, id, maxAttempt, maxAttemptPeriod).response.outcome.Next?
    ensures ParseInt(Handle(store, config, headers, now, id, maxAttempt, maxAttemptPeriod)
                       .response.headers[RemainingHeader])
         == Some(EffectiveLimit(config, maxAttempt) - StoredCount(store, id) - 1)
  {
  }
}

=== FILE: optional.dfy ===
/** Optional values: the model's stand-in for a JavaScript value that may be `undefined`. */
module Optional {

  datatype Option<+T> = None | Some(value: T)
}

=== FILE: properties.dfy ===
/**
 Properties of the throttling decision over single calls and over a sequence
 of calls for the same identifier.
 */
module ThrottleProperties {
  import opened Optional
  import opened ThrottleTypes
  import opened RequestThrottlerManager

  function Min(a: int, b: int): int {
    if a <= b then a else b
  }

  /** The results and final store of a run of calls. */
  datatype Run = Run(results: seq<VerificationResult>, store: Store)

  /**
   Verifies `id` once per entry of `nows`, in order, each call seeing the store
   the previous one left.
   */
  function Repeat(store: Store, config: ThrottleConfig, nows: seq<int>,
                  countOverride: Option<int>, periodOverride: Option<int>, id: string): (r: Run)
    ensures |r.results| == |nows|
    ensures forall k :: k != id ==> Lookup(r.store, k) == Lookup(store, k)
    decreases |nows|
  {
    if nows == [] then Run([], store)
    else
      var first := Verify(store, config, nows[0], countOverride, periodOverride, id);
      var rest := Repeat(first.store, config, nows[1..], countOverride, periodOverride, id);
      Run([first.result] + rest.results, rest.store)
  }

  /** Every stored attempt count is at most `limit`. */
  predicate CountsAtMost(store: Store, limit: int) {
    forall k :: k in store ==> store[k].data.attemptCount <= limit
  }

  /** Every stored attempt count is non-negative. */
  predicate CountsNonNegative(store: Store) {
    forall k :: k in store ==> store[k].data.attemptCount >= 0
  }

  /** A zero override is the same as no override, for both the limit and the period. */
  lemma ZeroOverrideIsUnset(store: Store, config: ThrottleConfig, now: int,
                            countOverride: Option<int>, periodOverride: Option<int>, id: string)
    ensures Verify(store, config, now, Some(0), periodOverride, id)
         == Verify(store, config, now, None, periodOverride, id)
    ensures Verify(store, config, now, countOverride, Some(0), id)
         == Verify(store, config, now, countOverride, None, id)
  {
  }

  /**
   An identifier with no record behaves exactly like one whose stored record
   is the new-visitor record `{0, now + period}`, whatever TTL it was written
   with: same result, same store afterwards apart from that entry.
   */
  lemma MissingRecordActsAsNewVisitor(store: Store, config: ThrottleConfig, now: int, ttl: int,
                                      countOverride: Option<int>, periodOverride: Option<int>, id: string)
    requires id !in store
    ensures var zero := store[id := Cached(BuildDataForNewVisitor(now + EffectivePeriod(config, periodOverride)), ttl)];
      var absent := Verify(store, config, now, countOverride, periodOverride, id);
      var present := Verify(zero, config, now, countOverride, periodOverride, id);
      && absent.result == present.result
      && Lookup(absent.store, id) == (if absent.result.requestPermitted then Lookup(present.store, id) else None)
      && (forall k :: k != id ==> Lookup(absent.store, k) == Lookup(present.store, k))
  {
  }

  /** The first call for an unknown identifier is permitted whenever the limit is positive and opens a fresh window. */
  lemma FirstCallPermitted(store: Store, config: ThrottleConfig, now: int,
                           countOverride: Option<int>, periodOverride: Option<int>, id: string)
    requires id !in store
    requires EffectiveLimit(config, countOverride) > 0
    ensures var st := Verify(store, config, now, countOverride, periodOverride, id);
      && st.result.requestPermitted
      && st.result.attemptCount == 1
      && Lookup(st.store, id) == Some(VisitorData(1, now + EffectivePeriod(config, periodOverride)))
  {
  }

  /**
   Once a call is denied, any later call with the same limit is denied too,
   reports the same count and leaves the store as it is.
   */
  lemma DenialIsIdempotent(store: Store, config: ThrottleConfig, now: int, later: int,
                           countOverride: Option<int>, periodOverride: Option<int>, id: string)
    requires !Verify(store, config, now, countOverride, periodOverride, id).result.requestPermitted
    ensures var first := Verify(store, config, now, countOverride, periodOverride, id);
      var second := Verify(first.store, config, later, countOverride, periodOverride, id);
      && !second.result.requestPermitted
      && second.store == store
      && second.result.attemptCount == first.result.attemptCount
      && (id in store ==> second.result.resetTime == first.result.resetTime)
  {
  }

  /** Verification keeps every stored count at most the limit it enforces. */
  lemma VerifyKeepsCeiling(store: Store, config: ThrottleConfig, now: int,
                           countOverride: Option<int>, periodOverride: Option<int>, id: string)
    requires CountsAtMost(store, EffectiveLimit(config, countOverride))
    ensures CountsAtMost(Verify(store, config, now, countOverride, periodOverride, id).store,
                         EffectiveLimit(config, countOverride))
  {
  }

  /** Verification keeps every stored count non-negative. */
  lemma VerifyKeepsCountsNonNegative(store: Store, config: ThrottleConfig, now: int,
                                     countOverride: Option<int>, periodOverride: Option<int>, id: string)
    requires CountsNonNegative(store)
    ensures CountsNonNegative(Verify(store, config, now, countOverride, periodOverride, id).store)
  {
  }

  /** A run of calls keeps every stored count at most the limit it enforces. */
  lemma {:induction false} RepeatKeepsCeiling(store: Store, config: ThrottleConfig, nows: seq<int>,
                                              countOverride: Option<int>, periodOverride: Option<int>, id: string)
    requires CountsAtMost(store, EffectiveLimit(config, countOverride))
    ensures CountsAtMost(Repeat(store, config, nows, countOverride, periodOverride, id).store,
                         EffectiveLimit(config, countOverride))
    decreases |nows|
  {
    if nows != [] {
      var first := Verify(store, config, nows[0], countOverride, periodOverride, id);
      VerifyKeepsCeiling(store, config, nows[0], countOverride, periodOverride, id);
      RepeatKeepsCeiling(first.store, config, nows[1..], countOverride, periodOverride, id);
    }
  }

  /**
   A run of calls starting from a stored count `c` at most the limit `N`:
   call `i` (from 0) is permitted exactly when `c + i < N`, reports
   `min(c + i, N) + 1`, and a permitted call renews the window from its own
   time; afterwards the stored count is `min(c + |nows|, N)`.
   */
  lemma {:induction false} RepeatFromCount(store: Store, config: ThrottleConfig, nows: seq<int>,
                                           countOverride: Option<int>, periodOverride: Option<int>, id: string)
    requires 0 <= StoredCount(store, id) <= EffectiveLimit(config, countOverride)
    ensures var c := StoredCount(store, id);
      var n := EffectiveLimit(config, countOverride);
      var r := Repeat(store, config, nows, countOverride, periodOverride, id);
      && (forall i :: 0 <= i < |nows| ==>
            && r.results[i].requestPermitted == (c + i < n)
            && r.results[i].attemptCount == Min(c + i, n) + 1
            && r.results[i].maxAttemptCount == n
            && (c + i < n ==> r.results[i].resetTime == nows[i] + EffectivePeriod(config, periodOverride)))
      && StoredCount(r.store, id) == Min(c + |nows|, n)
    decreases |nows|
  {
    if nows != [] {
      var c := StoredCount(store, id);
      var n := EffectiveLimit(config, countOverride);
      var first := Verify(store, config, nows[0], countOverride, periodOverride, id);
      var rest := Repeat(first.store, config, nows[1..], countOverride, periodOverride, id);
      var r := Repeat(store, config, nows, countOverride, periodOverride, id);
      assert StoredCount(first.store, id) == Min(c + 1, n);
      RepeatFromCount(first.store, config, nows[1..], countOverride, periodOverride, id);
      assert r.results == [first.result] + rest.results;
      forall i | 1 <= i < |nows|
        ensures && r.results[i].requestPermitted == (c + i < n)
                && r.results[i].attemptCount == Min(c + i, n) + 1
                && r.results[i].maxAttemptCount == n
                && (c + i < n ==> r.results[i].resetTime == nows[i] + EffectivePeriod(config, periodOverride))
      {
        assert r.results[i] == rest.results[i - 1];
        assert nows[1..][i - 1] == nows[i];
      }
    }
  }

  /**
   With limit `N` and no stored record: calls 1..N are permitted and report
   1..N, every later call is denied and reports N + 1, and the stored count
   ends at min(number of calls, N).
   */
  lemma BurstFromNewVisitor(store: Store, config: ThrottleConfig, nows: seq<int>,
                            countOverride: Option<int>, periodOverride: Option<int>, id: string)
    requires id !in store
    requires EffectiveLimit(config, countOverride) >= 0
    ensures var n := EffectiveLimit(config, countOverride);
      var r := Repeat(store, config, nows, countOverride, periodOverride, id);
      && (forall i :: 0 <= i < |nows| && i < n ==>
            r.results[i].requestPermitted && r.results[i].attemptCount == i + 1)
      && (forall i :: 0 <= i < |nows| && i >= n ==>
            !r.results[i].requestPermitted && r.results[i].attemptCount == n + 1)
      && StoredCount(r.store, id) == Min(|nows|, n)
  {
    RepeatFromCount(store, config, nows, countOverride, periodOverride, id);
  }

  /** Once the cache entry expires, the next call behaves exactly like a first-ever call. */
  lemma ExpiredBehavesAsNew(store: Store, config: ThrottleConfig, now: int,
                            countOverride: Option<int>, periodOverride: Option<int>, id: string)
    ensures var st := Verify(Expire(store, id), config, now, countOverride, periodOverride, id);
      var newcomer := Verify(map[], config, now, countOverride, periodOverride, id);
      && st.result == newcomer.result
      && Lookup(st.store, id) == Lookup(newcomer.store, id)
  {
  }

  /**
   Calls for different identifiers are independent: verifying one and then the
   other yields the same results and the same store in either order.
   */
  lemma DistinctIdentifiersCommute(store: Store, config: ThrottleConfig, now1: int, now2: int,
                                   countOverride: Option<int>, periodOverride: Option<int>,
                                   id1: string, id2: string)
    requires id1 != id2
    ensures var a1 := Verify(store, config, now1, countOverride, periodOverride, id1);
      var a2 := Verify(a1.store, config, now2, countOverride, periodOverride, id2);
      var b2 := Verify(store, config, now2, countOverride, periodOverride, id2);
      var b1 := Verify(b2.store, config, now1, countOverride, periodOverride, id1);
      && a1.result == b1.result
      && a2.result == b2.result
      && a2.store == b1.store
  {
  }
}
